=== FILE: README.md ===
# Piradigm decision rules in Dafny

Piradigm drives a small robot through timed challenges. A camera thread captures frames, a
processing thread analyses each frame, and a challenge object supervises both. This project models
the pure decision rules inside that pipeline and proves properties of them:

- **Colour thresholding with hue wrap-around** (`Threshold`, from `img_base_class.py`).
  `wrapping_inRange` keeps a pixel when its HSV channels lie within inclusive bounds. When the lower
  hue exceeds the upper hue, the hue test becomes `[0, upper] ∪ [lower, 180]`.
  `threshold_image` applies a `(lower, upper)` pair.
- **Largest-region selection** (`Contours`, from `img_base_class.py`).
  `find_largest_contour` is an argmax with a strict `<` and a floor of 1. It divides by `m00` for
  every new running maximum, which raises `ZeroDivisionError` when `m00` is zero.
- **Balloon selection** (`Balloon`, from `pi_noon.py`). `find_balloon` rounds the circle
  candidates and picks the first of the largest radius. Python 2's `None < r` makes the first
  candidate always beat the initial `None`.
- **Steering decision** (`Steering`, from `pi_noon.py`). `process_image` maps the balloon and the
  `found` / `back_away` flags to new flags and drive commands. `seek` is a turn followed by a stop.
  Three details are modelled as the code has them:
  - the back-off branch assigns a misspelt `back_Away`, so `back_away` is left unchanged there;
  - `-STRAIGHT_SPEED/2` is Python 2 integer division, so it is `-1` rather than `-0.5`;
  - `DRIVING` is false from construction on, so no drive command is ever sent.
- **Calibration challenge** (`Calibration`, from `calibrate.py`). It covers:
  - the joystick handler's priority-ordered update of `mode_number` and `finished`;
  - the `AttributeError` that the handler's `select` branch raises by logging a missing attribute;
  - Python indexing of the four-entry mode list, and per-mode dispatch of a frame;
  - `get_limits` (`mean ± sigmas·stddev` over reals) and its centre-circle geometry.
- **Challenge lifetime** (`Challenge`, from `base_challenge.py`). `should_die` is `timed out ||
  killed`, with the clock as an explicit parameter. `stop()` latches `killed`.
- **Python 2 values** (`PyValues`): `None` and its ordering, exceptions as `Result`, floor
  division, `int()` truncation, and `numpy.round` (round half to even).

OpenCV calls are taken as inputs:
- `HoughCircles` gives raw float circles;
- `findContours`, applied to the thresholded mask, gives contour records `(area, m00, m10, m01)`;
- `meanStdDev` gives per-channel mean and deviation.

Masks are grids of booleans, where `true` stands for 255.

The model follows the code on these points:
- A region whose `m00` is zero raises `ZeroDivisionError` when its area beats the running maximum. It is not treated as "not found".
- Finding no region returns the sentinel `(-1, -1, 1, None)`, not an absent result.
- The size thresholds are strict `>` comparisons.
- Backing off reverses at full speed, not half speed.
- The back-off branch never sets `back_away`: it leaves it as it was, so only losing the balloon sets it.
- No motor command is issued, because `DRIVING` is false.

## Model

| member | source | states |
|---|---|---|
| PyValues.LessThan | pi_noon.py:76 | Python 2 `found_r < r`: `None` is below every number; otherwise the integer comparison |
| PyValues.GreaterThan | pi_noon.py:119 | Python 2 `balloon_r > MIN_BALLOON_SIZE`: `None` is never greater; otherwise the integer comparison |
| PyValues.FloorDiv | pi_noon.py:129 | Python 2 `/` on ints floors: for a positive divisor, the quotient times the divisor is the greatest multiple not above the dividend; for a negative divisor, the least multiple not below it |
| PyValues.TruncToInt | img_base_class.py:88-89 | `int()` of a float truncates toward zero: the result is within one of the input on the side of zero |
| PyValues.RoundHalfEven | pi_noon.py:73 | `numpy.round` gives the nearest integer, and an exact half goes to the even neighbour |
| Threshold.InRange | img_base_class.py:115-119 | `cv2.inRange` gives a mask of the frame's shape, set exactly at pixels whose three channels all lie within the inclusive bounds |
| Threshold.BitwiseOr | img_base_class.py:113 | the union mask has the inputs' shape and is set exactly where either input is set |
| Threshold.WrappingInRange | img_base_class.py:93-120 | the mask has the frame's shape, and each entry is set iff that pixel passes the hue test (one interval, or `[0,upper] ∪ [lower,180]` when lower > upper) and the saturation and value bounds |
| Threshold.ThresholdImage | img_base_class.py:61-71 | thresholding with `(lower, upper)` limits keeps exactly the pixels the wrapping test selects for those limits, with no other filtering |
| Threshold.WrappedRangeSelection | img_base_class.py:98-113 | with lower hue > upper hue, a pixel is kept iff its hue is in `[0,upper]` or `[lower,180]` and its saturation and value are within bounds |
| Threshold.PlainRangeSelection | img_base_class.py:114-119 | with lower hue ≤ upper hue, a pixel is kept iff all three channels are within their inclusive bounds |
| Threshold.SaturationValueIndependentOfHue | img_base_class.py:96-119 | ranges with the same saturation and value bounds agree on every pixel whose hue both accept; such a pixel is kept iff its saturation and value are in bounds, whichever hue branch applies |
| Threshold.MaskIsPointwise | img_base_class.py:93-120 | two frames of one shape that agree on a pixel get the same mask entry there |
| Threshold.WrappedIsUnionOfPlain | img_base_class.py:98-113 | the wrapped mask equals the union of the non-wrapping masks for hues `[0,upper]` and `[lower,180]` |
| Threshold.RedWrapExample | img_base_class.py:98-113 | for hues 170 to 10, hues 5 and 175 are kept and hue 90 is not |
| Threshold.FullRangeSelectsAll | calibrate.py:25 | the initial limits `((0,0,0),(180,255,255))` keep every 8-bit HSV pixel |
| Contours.CentroidTruncates | img_base_class.py:88-89 | each centroid coordinate `int(m/m00)` is the moment ratio truncated toward zero |
| Contours.Scan | img_base_class.py:83-90 | the loop raises iff a later contour beating the running area has zero `m00`; otherwise its result is the first maximal contour above the floor, or the sentinel |
| Contours.FindLargestContour | img_base_class.py:73-91 | raises `ZeroDivisionError` iff a new running maximum has zero `m00`. Otherwise the area is ≥ 1 and the sentinel `(-1,-1,1,None)` is returned iff no area exceeds 1. Else the first contour of maximal area is picked, with its area and its truncated centroid |
| Contours.LargestWinsEarliestTie | img_base_class.py:83-90 | the first contour of maximal area above 1 is returned, with its area and centroid, when no earlier contour that becomes the running maximum has zero `m00` |
| Contours.SelectionExamples | img_base_class.py:79-91 | regions of areas 10, 50, 30 give the 50 one; two equal maximal regions give the first |
| Contours.ZeroMomentRaisesOnlyWhenPicked | img_base_class.py:85-89 | a zero-`m00` contour raises when it beats the running area and is never divided by otherwise |
| Balloon.Round | pi_noon.py:73 | each rounded coordinate is within one half of the detector's value |
| Balloon.RoundAll | pi_noon.py:73 | rounding keeps the number and order of candidates |
| Balloon.Widest | pi_noon.py:74-79 | the scan picks nothing iff there are no candidates, and otherwise the first candidate of maximal radius |
| Balloon.FindBalloon | pi_noon.py:61-83 | no candidates (or `None`) gives `None`; otherwise the result is a rounded candidate whose radius is at least every radius and above every earlier one |
| Balloon.FirstWidestIsUnique | pi_noon.py:74-79 | at most one candidate is the first of maximal radius |
| Balloon.PickIsFirstWidest | pi_noon.py:74-79 | the first candidate of maximal rounded radius is the one returned |
| Balloon.SingleCandidateTaken | pi_noon.py:68-79 | a lone candidate is always taken, whatever its radius, since `None` orders below it |
| Steering.Detected | pi_noon.py:119 | a balloon counts as seen iff there is one and its radius exceeds 3 |
| Steering.Close | pi_noon.py:125 | a radius above 60 is close, one at most 40 is not, and in between it is close iff `back_away` is set |
| Steering.Turn | pi_noon.py:123-124 | the turn times the centre `80` is `TURN_P` times the balloon's offset from the centre |
| Steering.Classify | pi_noon.py:119-145 | the branch taken, in terms of the radius, `back_away` and `found`: back off, approach, recoil after a loss, or search |
| Steering.NewTracker | pi_noon.py:17-41 | the constructed processor has `found`, `back_away`, `edge` and `DRIVING` false and a zero frame counter |
| Steering.Seek | pi_noon.py:86-90 | seeking turns on the spot at `TURN_SPEED`, then stops |
| Steering.Intended | pi_noon.py:124-148 | approaching sends `(turn, STRAIGHT_SPEED)`, backing off `(turn/2, -1)`, recoiling `(0, -STRAIGHT_SPEED)`, and searching seeks; backing off and recoiling reverse and the turn follows the balloon's side |
| Steering.Steer | pi_noon.py:116-148 | `found` becomes "balloon detected"; backing off leaves `back_away` as it was and sets only the stray `back_Away`; approaching clears `back_away`; a detection leaves `edge` unchanged; a loss sets `back_away` to the old `found` and clears `edge`; the counter grows by one; commands are sent only when driving, and are the branch's intended ones |
| Steering.ProcessImage | pi_noon.py:92-159 | each frame advances the counter by one; a frame without candidates leaves `found` false; nothing is sent while not driving |
| Steering.Run | pi_noon.py:92-159 | over a sequence of processed frames the counter grows by the number of frames, `DRIVING` never changes, `edge` never becomes true, and nothing is sent while not driving |
| Steering.SmallOrMissingIsLost | pi_noon.py:119-134 | a `None` radius or one of at most 3 takes the lost branch |
| Steering.LostWhileTrackingRetreats | pi_noon.py:136-142 | losing a tracked balloon sets `back_away`, clears `found` and intends `(0, -1)` |
| Steering.TurnSteersTowardBalloon | pi_noon.py:123-124 | the turn is `2 - x/40`: positive left of centre, zero at the centre, and within ±2 inside the frame |
| Steering.BackOffIsFullSpeedReverse | pi_noon.py:125-129 | the back-off command is `(turn/2, -1)`, not half-speed reverse |
| Steering.BackAwaySetOnlyByLoss | pi_noon.py:125-145 | `back_away` only turns true in the lost branch after a detection |
| Steering.BackOffDoesNotArmHysteresis | pi_noon.py:125-133 | after a back-off on a large balloon, a moderately large balloon makes the robot approach again |
| Steering.HysteresisAfterLoss | pi_noon.py:125-142 | after losing a tracked balloon, a moderately large balloon keeps the robot backing off |
| Steering.BackAwayHoldsOnModerateBalloon | pi_noon.py:125-129 | with `back_away` set, a radius in `(40, 60]` backs off at full reverse and keeps `back_away` set |
| Steering.BackingOffPersists | pi_noon.py:125-129 | once `back_away` is set, a run of frames each showing a radius in `(40, 60]` keeps `back_away` set and, when driving, reverses on every frame |
| Steering.RunFromNewTrackerIsSilent | pi_noon.py:128-159 | from the constructed processor no run issues any drive command, and the counter equals the number of frames |
| Steering.RunSendsIntendedCommands | pi_noon.py:128-148 | when driving, a run starts with exactly the first frame's intended commands |
| Calibration.NewCalibrator | calibrate.py:23-31 | the processor starts in mode 0, not finished, with limits `((0,0,0),(180,255,255))` and a zero counter |
| Calibration.JoystickHandler | calibrate.py:125-144 | `AttributeError` is raised iff select is pressed without home in a mode other than 0, and then no state changes. Otherwise the mode is the highest-priority mode button's (l2, l1, r2, home) or unchanged, and `finished` becomes true iff r1 is pressed or it already was. Limits and counter never change |
| Calibration.ButtonEffects | calibrate.py:126-143 | home, l2, l1 and r2 alone select modes 0, 1, 2 and 3; r1 alone finishes; no buttons change nothing |
| Calibration.SelectChangesNothing | calibrate.py:129-133 | select alone changes neither mode nor finished, and raises iff the mode is not 0 |
| Calibration.HandlerKeepsModeInRange | calibrate.py:126-143 | a mode number within the list stays within it |
| Calibration.HandleAll | calibrate.py:173-176 | over any polls, stopping at the first exception, a mode number in range stays in range, the limits stay unchanged and `finished` is never cleared |
| Calibration.ModeAt | calibrate.py:108 | indexing the mode list succeeds iff the index is in `[-4, 4)`, giving the list entry for non-negative indices, and raises `IndexError` otherwise |
| Calibration.ReachableModeAlwaysIndexes | calibrate.py:125-144 | from the constructed processor, whatever is pressed, the mode number indexes the list |
| Calibration.GetLimits | calibrate.py:80-92 | the limits are centred on the mean, and their width is twice `sigmas` deviations, per channel |
| Calibration.LimitsOrdered | calibrate.py:90-92 | with non-negative deviations and multiplier, lower ≤ upper per channel; zero deviation gives lower = upper = mean |
| Calibration.CalibratedRangeIsPlain | calibrate.py:53-66 | a range from auto-calibration never takes the wrap-around branch: it keeps exactly the pixels within all three limits |
| Calibration.CentreMask | calibrate.py:85-88 | the centre is `(w/2, h/2)` and the radius `min(h,w)/2`, all floored, and the circle lies within `[0,w]×[0,h]` |
| Calibration.CameraFrameMask | calibrate.py:85-88 | for the 160×128 frame the circle is centred at (80, 64) with radius 64 |
| Calibration.ProcessImage | calibrate.py:50-109 | a mode number outside `[-4, 4)` raises `IndexError`; with the mode number in range, only auto-calibration changes the limits, and only thresholding yields a mask and a region, counts the frame and can raise (exactly when region selection on the mask's contours raises); the mask keeps exactly the pixels the current limits select, and the region is what `find_largest_contour` returns for it |
| Calibration.OnlyAutoCalibrationChangesLimits | calibrate.py:50-78 | modes other than thresholding never raise; modes other than auto-calibration keep the limits; thresholding raises iff region selection raises |
| Challenge.ShouldDie | base_challenge.py:20-24 | the challenge should die iff it was stopped or the clock has reached start + timeout |
| Challenge.NewDefaultChallenge | base_challenge.py:9-17 | with the default arguments the name is "Unamed", the timeout 120 and the challenge should die exactly from 120 seconds after its start |
| Challenge.NewChallenge | base_challenge.py:9-17 | a new challenge is not killed and records its name, timeout and start time |
| Challenge.Stop | base_challenge.py:26-28 | `stop()` sets `killed` and changes nothing else |
| Challenge.ExpireTimeout | pi_noon.py:204-205 | zeroing the timeout keeps `killed`, the start time and the name |
| Challenge.NewChallengeLivesUntilTimeout | base_challenge.py:20-24 | a fresh challenge with positive timeout should die iff the clock reaches start + timeout |
| Challenge.StopKillsForGood | base_challenge.py:26-28 | after `stop()` it should die at every clock value, and stopping twice is stopping once |
| Challenge.TimeoutPersists | base_challenge.py:23 | for a clock that does not go back, once timed out it stays timed out |
| Challenge.ZeroTimeoutDies | base_challenge.py:23 | with the timeout zeroed it should die at any clock value from the start time on |
| Challenge.KilledIsLatched | base_challenge.py:26-28 | once stopped, no later sequence of operations resets `killed` |
| Challenge.DeathIsPermanent | base_challenge.py:20-24 | for a non-negative timeout, once `should_die` holds, it holds after any later operations at any later clock value |

## Left out

- Threads and the frame hand-off are not modelled, because their point is concurrency. This covers `ImageCapture`, `trigger_stream`, `StreamProcessor.run` and the `event` signalling. Note that `trigger_stream` skips while the event is set; it does not overwrite the frame.
- The challenges' `run()` loops are not modelled: their sleeps, camera configuration, teardown order, keyboard-interrupt handling and final `drive.stop()`. `Calibration.HandleAll` covers only the joystick part of the calibration loop, and `Challenge.ExpireTimeout` covers only the timeout reset of the Pi Noon loop.
- Steering.Run: models only the order of successive `process_image` calls. The thread loop around them, with `event.wait(1)`, `terminated` and the `try`/`finally` stream reset, is not modelled.
- Steering.Seek: the sleeps of `TURN_TIME` and `SETTLE_TIME` after each command are not modelled; only the two commands and their order are.
- Challenge.ExpireTimeout: Pi Noon's processor never sets `finished` to true (its only assignment is `False` in the constructor), so the timeout reset it models never runs in the code as written.
- Balloon.RawCircle: any radius is accepted. `find_balloon` asks `HoughCircles` for radii of at most 10, so with the code as written no radius above 10 reaches the decision and the back-off branch (radius above 40) is unreachable. The circle input over-approximates the detector, and the hysteresis lemmas describe inputs it never produces.
- Contours.Contour: `area` and `m00` are independent inputs. OpenCV computes both from the same polygon, so the raise branch (area above 1 with zero `m00`) may be unreachable in practice; the model over-approximates there.
- OpenCV primitives are model inputs, not modelled: `HoughCircles`, `Canny`, `findContours`, `contourArea`, `moments`, `meanStdDev`, `cvtColor`, cropping, and `cv2.circle` rasterisation of the mask.
- Threshold.WrappingInRange: compares bounds and pixels exactly. OpenCV's conversion of fractional bounds to the 8-bit image depth inside `inRange` is not modelled.
- All pygame rendering is left out: labels, screen blits, mouse cursor moves, display updates.
- Logging is left out. The `select` branch's log call is kept only as the `AttributeError` it raises.
- The calibration save routine is left out (the source marks it TODO), and so is colour storage.
- Attributes that no modelled rule reads are left out, such as `TURN_AREA`, `TURN_D`, `last_t_error`, `BLUR`, `PARAM`, and the processors' own `TIMEOUT`/`END_TIME`.
- Floating point is modelled over reals: the turn, the limits, areas and moments.
- `time.clock()` is an explicit `now` parameter. On Unix, Python 2 returns processor time, not wall time.
- The `DriveTrain` collaborator and its timeout are left out; drive commands are recorded as `(turn, speed)` values.
- `menu.py`, `buttons.py` and `detect_markers.py` are UI and display scripts outside the decision core.

=== FILE: balloon.dfy ===
/** Choosing the balloon among the circle candidates (`StreamProcessor.find_balloon`,
    pi_noon.py).

    `cv2.HoughCircles` is a foreign call: its result is `None` or a list of float
    `(x, y, r)` candidates, which the selection rounds with `numpy.round` and then scans. */
module Balloon {
  import opened PyValues

  /** A circle candidate as the detector reports it. */
  datatype RawCircle = RawCircle(x: real, y: real, r: real)

  /** A candidate after rounding to integers. */
  datatype Circle = Circle(x: int, y: int, r: int)

  /** `numpy.round(...).astype("int")` on one candidate. */
  function Round(c: RawCircle): (d: Circle)
    ensures -0.5 <= c.r - d.r as real <= 0.5
    ensures -0.5 <= c.x - d.x as real <= 0.5 && -0.5 <= c.y - d.y as real <= 0.5
  {
    Circle(RoundHalfEven(c.x), RoundHalfEven(c.y), RoundHalfEven(c.r))
  }

  function RoundAll(cs: seq<RawCircle>): (ds: seq<Circle>)
    ensures |ds| == |cs|
    ensures forall i :: 0 <= i < |cs| ==> ds[i] == Round(cs[i])
  {
    seq(|cs|, i requires 0 <= i < |cs| => Round(cs[i]))
  }

  /** The radius held in `found_r`: `None` until a circle has been taken. */
  function FoundRadius(cs: seq<Circle>, best: Option<nat>): Option<int>
    requires best.Some? ==> best.value < |cs|
  {
    if best.None? then None else Some(cs[best.value].r)
  }

  /** Circle `k` is the first of maximal radius among the first `n` circles. */
  predicate FirstWidestAmong(cs: seq<Circle>, n: nat, k: nat)
    requires n <= |cs|
  {
    && k < n
    && (forall j :: 0 <= j < n ==> cs[j].r <= cs[k].r)
    && (forall j :: 0 <= j < k ==> cs[j].r < cs[k].r)
  }

  /** The loop of `find_balloon` from circle `i` on: a circle replaces the current pick
      when `found_r < r`, which under Python 2 holds for every circle while `found_r`
      is still `None`. */
  function Widest(cs: seq<Circle>, i: nat, best: Option<nat>): (k: Option<nat>)
    requires i <= |cs|
    requires best.None? <==> i == 0
    requires best.Some? ==> FirstWidestAmong(cs, i, best.value)
    ensures k.None? <==> |cs| == 0
    ensures k.Some? ==> FirstWidestAmong(cs, |cs|, k.value)
    decreases |cs| - i
  {
    if i == |cs| then best
    else if LessThan(FoundRadius(cs, best), cs[i].r) then Widest(cs, i + 1, Some(i))
    else Widest(cs, i + 1, best)
  }

  /** `find_balloon`: `[found_x, found_y, found_r]`, all `None` together or all set from
      one circle, given as an optional circle. */
  function FindBalloon(circles: Option<seq<RawCircle>>): (b: Option<Circle>)
    ensures circles.None? ==> b.None?
    ensures circles.Some? ==> (b.None? <==> |circles.value| == 0)
    ensures b.Some? ==> circles.Some?
    ensures circles.Some? && b.Some? ==>
      exists k: nat | k < |circles.value| ::
        FirstWidestAmong(RoundAll(circles.value), |circles.value|, k) && b.value == RoundAll(circles.value)[k]
  {
    match circles
    case None => None
    case Some(cs) =>
      var ds := RoundAll(cs);
      var k := Widest(ds, 0, None);
      if k.None? then None else Some(ds[k.value])
  }

  /** At most one circle is the first of maximal radius. */
  lemma FirstWidestIsUnique(cs: seq<Circle>, n: nat, a: nat, b: nat)
    requires n <= |cs|
    requires FirstWidestAmong(cs, n, a) && FirstWidestAmong(cs, n, b)
    ensures a == b
  {
    assert cs[a].r == cs[b].r;
  }

  /** The picked radius is at least every candidate's rounded radius, and the pick is the
      first candidate of that radius; in particular a single candidate is always taken,
      since the initial `None` orders below any radius. */
  lemma PickIsFirstWidest(cs: seq<RawCircle>, k: nat)
    requires k < |cs|
    requires forall j :: 0 <= j < |cs| ==> Round(cs[j]).r <= Round(cs[k]).r
    requires forall j :: 0 <= j < k ==> Round(cs[j]).r < Round(cs[k]).r
    ensures FindBalloon(Some(cs)) == Some(Round(cs[k]))
  {
  }

  /** Every candidate is taken when it is the only one, whatever its radius. */
  lemma SingleCandidateTaken(c: RawCircle)
    ensures FindBalloon(Some([c])) == Some(Round(c))
  {
  }
}

=== FILE: calibration.dfy ===
/** The colour-calibration challenge (calibrate.py): the joystick handler that picks the
    mode and the finished flag, the dispatch of each frame through the mode list, and the
    arithmetic of `get_limits`.

    `cv2.meanStdDev` and `cv2.findContours` are foreign calls: a frame carries, besides
    its HSV pixels, the per-channel mean and standard deviation of the masked centre, and
    the contour finder, which thresholding applies to the mask it builds. */
module Calibration {
  import opened PyValues
  import opened Threshold
  import opened Contours

  /** The joystick buttons the handler reads. */
  datatype Button = Home | Select | L1 | L2 | R1 | R2

  /** The entries of the processor's `mode` list, in list order. */
  datatype Mode = FileSelection | AutoCalibrating | ManualCalibrating | Thresholding

  const MODES: seq<Mode> := [FileSelection, AutoCalibrating, ManualCalibrating, Thresholding]

  /** The sigma multiplier the auto-calibrating mode passes to `get_limits`. */
  const SIGMAS: real := 1.5

  /** The processor attributes the calibration reads or writes; `frame` is the counter `i`. */
  datatype Calibrator = Calibrator(modeNumber: int, finished: bool, colourLimits: ColourRange, frame: nat)

  /** The state a freshly constructed calibration processor starts in. */
  function NewCalibrator(): (c: Calibrator)
    ensures c.modeNumber == 0 && !c.finished && c.frame == 0
    ensures c.colourLimits.lower == Bound(0.0, 0.0, 0.0)
    ensures c.colourLimits.upper == Bound(180.0, 255.0, 255.0)
  {
    Calibrator(0, false, FULL_RANGE, 0)
  }

  /** The mode number a set of presses selects when the mode buttons are read by priority,
      `l2` over `l1` over `r2` over `home`; with no mode button the mode stays `current`. */
  function PriorityMode(current: int, pressed: set<Button>): int
  {
    if L2 in pressed then 1
    else if L1 in pressed then 2
    else if R2 in pressed then 3
    else if Home in pressed then 0
    else current
  }

  /** The processor state after the handler, and the exception it raised, if any. */
  datatype Handled = Handled(state: Calibrator, raised: Option<PyError>)

  /** `joystick_handler`: the button checks run in source order, each later assignment of
      the mode overwriting an earlier one. The `select` check logs `self.colour_limits`,
      an attribute the challenge object does not have, so it raises `AttributeError`
      whenever it gets to the log call, and the checks after it do not run. */
  function JoystickHandler(c: Calibrator, pressed: set<Button>): (h: Handled)
    ensures h.raised.Some? <==> Select in pressed && Home !in pressed && c.modeNumber != 0
    ensures h.raised.Some? ==> h.raised.value == AttributeError && h.state == c
    ensures h.raised.None? ==> h.state.modeNumber == PriorityMode(c.modeNumber, pressed)
    ensures h.raised.None? ==> (h.state.finished <==> c.finished || R1 in pressed)
    ensures h.state.colourLimits == c.colourLimits && h.state.frame == c.frame
  {
    var c1 := if Home in pressed then c.(modeNumber := 0) else c;
    if Select in pressed && c1.modeNumber != 0 then
      Handled(c1, Some(AttributeError))
    else
      var c2 := if R1 in pressed then c1.(finished := true) else c1;
      var c3 := if R2 in pressed then c2.(modeNumber := 3) else c2;
      var c4 := if L1 in pressed then c3.(modeNumber := 2) else c3;
      var c5 := if L2 in pressed then c4.(modeNumber := 1) else c4;
      Handled(c5, None)
  }

  /** Each mode button alone selects its mode; `r1` alone only finishes. */
  lemma ButtonEffects(c: Calibrator)
    ensures JoystickHandler(c, {Home}) == Handled(c.(modeNumber := 0), None)
    ensures JoystickHandler(c, {L2}) == Handled(c.(modeNumber := 1), None)
    ensures JoystickHandler(c, {L1}) == Handled(c.(modeNumber := 2), None)
    ensures JoystickHandler(c, {R2}) == Handled(c.(modeNumber := 3), None)
    ensures JoystickHandler(c, {R1}) == Handled(c.(finished := true), None)
    ensures JoystickHandler(c, {}) == Handled(c, None)
  {
  }

  /** `select` never changes the mode or the finished flag; from a mode other than file
      selection it raises. */
  lemma SelectChangesNothing(c: Calibrator)
    ensures JoystickHandler(c, {Select}).state == c
    ensures JoystickHandler(c, {Select}).raised.Some? <==> c.modeNumber != 0
  {
  }

  /** The handler keeps the mode number within the four entries of the mode list. */
  lemma HandlerKeepsModeInRange(c: Calibrator, pressed: set<Button>)
    requires 0 <= c.modeNumber < |MODES|
    ensures 0 <= JoystickHandler(c, pressed).state.modeNumber < |MODES|
  {
  }

  /** The handler applied to a sequence of polls, stopping at the first exception (which
      ends the challenge's run loop). */
  function HandleAll(c: Calibrator, polls: seq<set<Button>>): (h: Handled)
    ensures 0 <= c.modeNumber < |MODES| ==> 0 <= h.state.modeNumber < |MODES|
    ensures h.state.colourLimits == c.colourLimits
    ensures c.finished ==> h.state.finished
    decreases |polls|
  {
    if |polls| == 0 then Handled(c, None)
    else
      var h1 := JoystickHandler(c, polls[0]);
      if h1.raised.Some? then h1 else HandleAll(h1.state, polls[1..])
  }

  /** Python indexing of the mode list: negative indices count from the end, and indices
      outside the list raise `IndexError`. */
  function ModeAt(n: int): (r: Result<Mode>)
    ensures r.Ok? <==> -|MODES| <= n < |MODES|
    ensures 0 <= n < |MODES| ==> r == Ok(MODES[n])
    ensures r.Raise? ==> r.error == IndexError
  {
    if 0 <= n < |MODES| then Ok(MODES[n])
    else if -|MODES| <= n < 0 then Ok(MODES[n + |MODES|])
    else Raise(IndexError)
  }

  /** Starting from the constructed processor, whatever buttons are pressed, the mode
      number always indexes the mode list. */
  lemma ReachableModeAlwaysIndexes(polls: seq<set<Button>>)
    ensures var n := HandleAll(NewCalibrator(), polls).state.modeNumber;
      0 <= n < |MODES| && ModeAt(n) == Ok(MODES[n])
  {
  }

  /** `get_limits` from the per-channel mean and standard deviation of the masked centre:
      `mean - sigmas * stddev` and `mean + sigmas * stddev`, so the range is centred on the
      mean and its width is twice `sigmas` deviations in every channel. */
  function GetLimits(mean: Bound, stddev: Bound, sigmas: real): (lim: ColourRange)
    ensures (lim.lower.h + lim.upper.h) / 2.0 == mean.h
    ensures (lim.lower.s + lim.upper.s) / 2.0 == mean.s
    ensures (lim.lower.v + lim.upper.v) / 2.0 == mean.v
    ensures lim.upper.h - lim.lower.h == 2.0 * sigmas * stddev.h
    ensures lim.upper.s - lim.lower.s == 2.0 * sigmas * stddev.s
    ensures lim.upper.v - lim.lower.v == 2.0 * sigmas * stddev.v
  {
    ColourRange(
      Bound(mean.h - sigmas * stddev.h, mean.s - sigmas * stddev.s, mean.v - sigmas * stddev.v),
      Bound(mean.h + sigmas * stddev.h, mean.s + sigmas * stddev.s, mean.v + sigmas * stddev.v))
  }

  predicate NonNegative(b: Bound)
  {
    b.h >= 0.0 && b.s >= 0.0 && b.v >= 0.0
  }

  /** With non-negative deviations and multiplier the lower limit never exceeds the upper,
      so a calibrated range never takes the hue wrap-around branch; with zero deviation
      both limits are the mean. */
  lemma LimitsOrdered(mean: Bound, stddev: Bound, sigmas: real)
    requires sigmas >= 0.0 && NonNegative(stddev)
    ensures var lim := GetLimits(mean, stddev, sigmas);
      && lim.lower.h <= lim.upper.h && lim.lower.s <= lim.upper.s && lim.lower.v <= lim.upper.v
      && (stddev == Bound(0.0, 0.0, 0.0) ==> lim.lower == mean && lim.upper == mean)
  {
  }

  /** A range calibrated from any non-negative deviation keeps exactly the pixels whose
      channels all lie within their limits: the wrap-around branch is never taken. */
  lemma CalibratedRangeIsPlain(img: Image, mean: Bound, stddev: Bound, r: nat, c: nat)
    requires NonNegative(stddev)
    requires r < |img| && c < |img[r]|
    ensures var lim := GetLimits(mean, stddev, SIGMAS);
      ThresholdImage(img, lim)[r][c] <==> Within(lim.lower, lim.upper, img[r][c])
  {
  }

  /** The circle `get_limits` averages over: centre `(w/2, h/2)` and radius `min(h, w)/2`,
      all in integer division. */
  datatype MaskCircle = MaskCircle(cx: int, cy: int, radius: int)

  function CentreMask(h: nat, w: nat): (m: MaskCircle)
    ensures 2 * m.cx <= w <= 2 * m.cx + 1 && 2 * m.cy <= h <= 2 * m.cy + 1
    ensures m.radius >= 0 && 2 * m.radius <= h && 2 * m.radius <= w
    ensures 2 * m.radius + 1 >= h || 2 * m.radius + 1 >= w
    ensures 0 <= m.cx - m.radius && m.cx + m.radius <= w
    ensures 0 <= m.cy - m.radius && m.cy + m.radius <= h
  {
    MaskCircle(FloorDiv(w, 2), FloorDiv(h, 2), FloorDiv(if h < w then h else w, 2))
  }

  /** For the 160 by 128 camera frame, the circle of radius 64 centred at (80, 64). */
  lemma CameraFrameMask()
    ensures CentreMask(128, 160) == MaskCircle(80, 64, 64)
  {
  }

  /** What the foreign calls give for one frame: the HSV pixels, `meanStdDev` over the
      centre circle, and `findContours` as a function of the mask it is applied to. */
  datatype Frame = Frame(hsv: Image, mean: Bound, stddev: Bound, findContours: Mask -> seq<Contour>)

  /** The outcome of one processed frame: the new state, and in thresholding mode the
      mask and the largest region. */
  datatype Processed = Processed(state: Calibrator, mask: Option<Mask>, blob: Option<Blob>)

  /** `process_image`: call the mode the mode number indexes. File selection and manual
      calibration change nothing; auto-calibration replaces the colour limits; thresholding
      masks the frame with the current limits, picks the largest region and counts the
      frame. */
  function ProcessImage(c: Calibrator, f: Frame): (r: Result<Processed>)
    ensures r.Ok? ==> r.value.state.modeNumber == c.modeNumber && r.value.state.finished == c.finished
    ensures -|MODES| <= c.modeNumber < |MODES| && MODES[c.modeNumber % |MODES|] != Thresholding ==> r.Ok?
    ensures r.Ok? && MODES[c.modeNumber % |MODES|] != AutoCalibrating ==>
      r.value.state.colourLimits == c.colourLimits
    ensures r.Ok? && MODES[c.modeNumber % |MODES|] == AutoCalibrating ==>
      r.value.state.colourLimits == GetLimits(f.mean, f.stddev, SIGMAS)
    ensures r.Ok? ==> (r.value.mask.Some? <==> MODES[c.modeNumber % |MODES|] == Thresholding)
    ensures r.Ok? && r.value.mask.Some? ==>
      && SameShape(r.value.mask.value, f.hsv)
      && (forall y, x :: 0 <= y < |f.hsv| && 0 <= x < |f.hsv[y]| ==>
            (r.value.mask.value[y][x] <==> Selected(c.colourLimits.lower, c.colourLimits.upper, f.hsv[y][x])))
      && r.value.state.frame == c.frame + 1
    ensures r.Ok? && r.value.mask.None? ==> r.value.state.frame == c.frame
    ensures r.Ok? ==> (r.value.blob.Some? <==> r.value.mask.Some?)
    ensures r.Ok? && r.value.mask.Some? ==>
      FindLargestContour(f.findContours(r.value.mask.value)) == Ok(r.value.blob.value)
    ensures -|MODES| <= c.modeNumber < |MODES| && MODES[c.modeNumber % |MODES|] == Thresholding ==>
      (r.Raise? <==> FindLargestContour(f.findContours(ThresholdImage(f.hsv, c.colourLimits))).Raise?)
    ensures !(-|MODES| <= c.modeNumber < |MODES|) ==> r == Raise(IndexError)
  {
    match ModeAt(c.modeNumber)
    case Raise(e) => Raise(e)
    case Ok(mode) =>
      match mode
      case FileSelection => Ok(Processed(c, None, None))
      case AutoCalibrating =>
        Ok(Processed(c.(colourLimits := GetLimits(f.mean, f.stddev, SIGMAS)), None, None))
      case ManualCalibrating => Ok(Processed(c, None, None))
      case Thresholding =>
        var mask := ThresholdImage(f.hsv, c.colourLimits);
        match FindLargestContour(f.findContours(mask))
        case Raise(e) => Raise(e)
        case Ok(blob) => Ok(Processed(c.(frame := c.frame + 1), Some(mask), Some(blob)))
  }

  /** Only the auto-calibrating mode changes the colour limits, and only the thresholding
      mode can raise (when a picked region has zero `m00`) or count frames. */
  lemma OnlyAutoCalibrationChangesLimits(c: Calibrator, f: Frame)
    requires 0 <= c.modeNumber < |MODES|
    ensures MODES[c.modeNumber] != Thresholding ==> ProcessImage(c, f).Ok?
    ensures MODES[c.modeNumber] != AutoCalibrating && ProcessImage(c, f).Ok? ==>
      ProcessImage(c, f).value.state.colourLimits == c.colourLimits
    ensures MODES[c.modeNumber] == Thresholding ==>
      (ProcessImage(c, f).Raise? <==>
         FindLargestContour(f.findContours(ThresholdImage(f.hsv, c.colourLimits))).Raise?)
  {
  }
}

=== FILE: challenge.dfy ===
/** The life-time rule every challenge shares (`BaseChallenge`, base_challenge.py): a
    challenge should stop once its timeout has elapsed since it started, or once `stop()`
    has been called.

    The clock, `time.clock()`, is a parameter: `now` is the value it returns. */
module Challenge {

  datatype Challenge = Challenge(name: string, timeout: real, startTime: real, killed: bool)

  const DEFAULT_TIMEOUT: real := 120.0
  const DEFAULT_NAME: string := "Unamed"

  /** The constructor, reading the clock once for the start time. */
  function NewChallenge(name: string, timeout: real, now: real): (c: Challenge)
    ensures !c.killed
    ensures c.startTime == now && c.timeout == timeout && c.name == name
  {
    Challenge(name, timeout, now, false)
  }

  /** The constructor with its default arguments: the name "Unamed" and a 120 second
      timeout. Such a challenge lives exactly until 120 seconds after it started. */
  function NewDefaultChallenge(now: real): (c: Challenge)
    ensures !c.killed && c.startTime == now
    ensures c.name == "Unamed" && c.timeout == 120.0
    ensures forall later: real :: ShouldDie(c, later) <==> later >= now + 120.0
  {
    NewChallenge(DEFAULT_NAME, DEFAULT_TIMEOUT, now)
  }

  /** `should_die`: timed out, or killed. */
  predicate ShouldDie(c: Challenge, now: real)
    ensures c.killed ==> ShouldDie(c, now)
    ensures !c.killed ==> (ShouldDie(c, now) <==> now - c.startTime >= c.timeout)
  {
    now >= c.startTime + c.timeout || c.killed
  }

  /** `stop()`: latch the killed flag. */
  function Stop(c: Challenge): (c': Challenge)
    ensures c'.killed
    ensures c'.name == c.name && c'.timeout == c.timeout && c'.startTime == c.startTime
  {
    c.(killed := true)
  }

  /** The Pi Noon run loop's reaction to a finished processor: zero the timeout. */
  function ExpireTimeout(c: Challenge): (c': Challenge)
    ensures c'.timeout == 0.0
    ensures c'.killed == c.killed && c'.startTime == c.startTime && c'.name == c.name
  {
    c.(timeout := 0.0)
  }

  /** A fresh challenge with a positive timeout is alive when constructed, and should die
      exactly when the clock reaches start plus timeout. */
  lemma NewChallengeLivesUntilTimeout(name: string, timeout: real, start: real, now: real)
    requires timeout > 0.0
    ensures !ShouldDie(NewChallenge(name, timeout, start), start)
    ensures ShouldDie(NewChallenge(name, timeout, start), now) <==> now >= start + timeout
  {
  }

  /** After `stop()` the challenge should die at every clock value, and stopping again
      changes nothing. */
  lemma StopKillsForGood(c: Challenge, now: real)
    ensures ShouldDie(Stop(c), now)
    ensures Stop(Stop(c)) == Stop(c)
  {
  }

  /** For a clock that does not run backwards, a timed-out challenge stays timed out. */
  lemma TimeoutPersists(c: Challenge, now: real, later: real)
    requires now <= later
    requires ShouldDie(c, now)
    ensures ShouldDie(c, later)
  {
  }

  /** With the timeout zeroed, the challenge should die from its start time on. */
  lemma ZeroTimeoutDies(c: Challenge, now: real)
    requires now >= c.startTime
    ensures ShouldDie(ExpireTimeout(c), now)
  {
  }

  /** The operations that change a challenge after construction. */
  datatype Event = StopCalled | TimeoutZeroed

  function Apply(c: Challenge, e: Event): Challenge
  {
    match e
    case StopCalled => Stop(c)
    case TimeoutZeroed => ExpireTimeout(c)
  }

  function ApplyAll(c: Challenge, es: seq<Event>): Challenge
    decreases |es|
  {
    if |es| == 0 then c else ApplyAll(Apply(c, es[0]), es[1..])
  }

  /** Nothing resets `killed`: once `stop()` has been called, at any point of any sequence
      of later operations, the challenge should die at every clock value. */
  lemma {:induction false} KilledIsLatched(c: Challenge, es: seq<Event>, now: real)
    requires c.killed || StopCalled in es
    ensures ApplyAll(c, es).killed
    ensures ShouldDie(ApplyAll(c, es), now)
    decreases |es|
  {
    if |es| > 0 {
      var c1 := Apply(c, es[0]);
      if !c.killed && es[0] != StopCalled {
        assert StopCalled in es[1..] by {
          var i :| 0 <= i < |es| && es[i] == StopCalled;
          assert i > 0 && es[1..][i - 1] == StopCalled;
        }
      }
      KilledIsLatched(c1, es[1..], now);
    }
  }

  /** Operations never move the start time, so for a clock that does not run backwards
      `should_die`, once true, stays true across any later operations. */
  lemma {:induction false} DeathIsPermanent(c: Challenge, es: seq<Event>, now: real, later: real)
    requires now <= later
    requires ShouldDie(c, now)
    requires c.timeout >= 0.0
    ensures ShouldDie(ApplyAll(c, es), later)
    decreases |es|
  {
    if |es| > 0 {
      var c1 := Apply(c, es[0]);
      assert ShouldDie(c1, now);
      DeathIsPermanent(c1, es[1..], now, later);
    }
  }
}

=== FILE: contours.dfy ===
/** Largest-region selection over the contours of a mask (`find_largest_contour`,
    img_base_class.py).

    `cv2.findContours`, `cv2.contourArea` and `cv2.moments` are foreign calls: a contour
    is represented by the numbers the selection reads from them, in the order
    `findContours` lists the contours. */
module Contours {
  import opened PyValues

  /** A contour's area and the zeroth and first moments of its region. */
  datatype Contour = Contour(area: real, m00: real, m10: real, m01: real)

  /** What `find_largest_contour` returns: the centroid, the area, and which contour
      was picked (its index in the list, standing for the contour object), or `None`. */
  datatype Blob = Blob(x: int, y: int, area: real, biggest: Option<nat>)

  /** The area every candidate has to exceed. */
  const AREA_FLOOR: real := 1.0

  /** The result when no contour has an area above the floor. */
  const NOT_FOUND: Blob := Blob(-1, -1, AREA_FLOOR, None)

  /** The centroid `(int(m10/m00), int(m01/m00))` of a contour with non-zero `m00`. */
  function Centroid(c: Contour): (xy: (int, int))
    requires c.m00 != 0.0
  {
    (TruncToInt(c.m10 / c.m00), TruncToInt(c.m01 / c.m00))
  }

  /** Each centroid coordinate is the moment ratio truncated toward zero. */
  lemma CentroidTruncates(c: Contour)
    requires c.m00 != 0.0
    ensures var x, y := c.m10 / c.m00, c.m01 / c.m00;
      && (x >= 0.0 ==> Centroid(c).0 as real <= x < Centroid(c).0 as real + 1.0)
      && (x < 0.0 ==> Centroid(c).0 as real - 1.0 < x <= Centroid(c).0 as real)
      && (y >= 0.0 ==> Centroid(c).1 as real <= y < Centroid(c).1 as real + 1.0)
      && (y < 0.0 ==> Centroid(c).1 as real - 1.0 < y <= Centroid(c).1 as real)
  {
  }

  /** Contour `i` beats the running maximum when the loop reaches it: its area is above
      the floor and above the area of every earlier contour. Exactly these contours
      have their moments read. */
  predicate IsNewMax(cs: seq<Contour>, i: nat)
    requires i < |cs|
  {
    AREA_FLOOR < cs[i].area && forall j :: 0 <= j < i ==> cs[j].area < cs[i].area
  }

  /** Contour `k` is the first of maximal area among the first `n` contours. */
  predicate FirstMaxAmong(cs: seq<Contour>, n: nat, k: nat)
    requires n <= |cs|
  {
    && k < n
    && (forall j :: 0 <= j < n ==> cs[j].area <= cs[k].area)
    && (forall j :: 0 <= j < k ==> cs[j].area < cs[k].area)
  }

  /** What the loop's variables hold after the first `n` contours, had nothing raised. */
  predicate Scanned(cs: seq<Contour>, n: nat, acc: Blob)
    requires n <= |cs|
  {
    && (forall j :: 0 <= j < n && IsNewMax(cs, j) ==> cs[j].m00 != 0.0)
    && match acc.biggest
       case None =>
         acc == NOT_FOUND && forall j :: 0 <= j < n ==> cs[j].area <= AREA_FLOOR
       case Some(k) =>
         && FirstMaxAmong(cs, n, k)
         && AREA_FLOOR < cs[k].area
         && acc.area == cs[k].area
         && cs[k].m00 != 0.0
         && (acc.x, acc.y) == Centroid(cs[k])
  }

  /** The loop of `find_largest_contour` from contour `i` on, with the running result
      `acc`: a contour whose area exceeds the running area becomes the result, and its
      centroid divides by `m00`, which raises when `m00` is zero. */
  function Scan(cs: seq<Contour>, i: nat, acc: Blob): (r: Result<Blob>)
    requires i <= |cs|
    requires Scanned(cs, i, acc)
    ensures r.Raise? <==> exists j :: i <= j < |cs| && IsNewMax(cs, j) && cs[j].m00 == 0.0
    ensures r.Raise? ==> r.error == ZeroDivisionError
    ensures r.Ok? ==> Scanned(cs, |cs|, r.value)
    decreases |cs| - i
  {
    if i == |cs| then Ok(acc)
    else if acc.area < cs[i].area then
      if cs[i].m00 == 0.0 then
        Raise(ZeroDivisionError)
      else
        var xy := Centroid(cs[i]);
        Scan(cs, i + 1, Blob(xy.0, xy.1, cs[i].area, Some(i)))
    else
      Scan(cs, i + 1, acc)
  }

  /** `find_largest_contour` on the contours of a mask. */
  function FindLargestContour(cs: seq<Contour>): (r: Result<Blob>)
    ensures r.Raise? <==> exists j :: 0 <= j < |cs| && IsNewMax(cs, j) && cs[j].m00 == 0.0
    ensures r.Raise? ==> r.error == ZeroDivisionError
    ensures r.Ok? ==> r.value.area >= AREA_FLOOR
    ensures r.Ok? ==> (r.value.biggest.None? <==> forall j :: 0 <= j < |cs| ==> cs[j].area <= AREA_FLOOR)
    ensures r.Ok? && r.value.biggest.None? ==> r.value == NOT_FOUND
    ensures r.Ok? && r.value.biggest.Some? ==>
      var k := r.value.biggest.value;
      && k < |cs|
      && r.value.area == cs[k].area
      && (forall j :: 0 <= j < |cs| ==> cs[j].area <= cs[k].area)
      && (forall j :: 0 <= j < k ==> cs[j].area < cs[k].area)
      && cs[k].m00 != 0.0
      && (r.value.x, r.value.y) == Centroid(cs[k])
  {
    Scan(cs, 0, NOT_FOUND)
  }

  /** The result is the maximum area whenever some contour exceeds the floor and no
      earlier running maximum has zero `m00`, and ties go to the earliest contour of
      that area. */
  lemma LargestWinsEarliestTie(cs: seq<Contour>, k: nat)
    requires k < |cs| && AREA_FLOOR < cs[k].area
    requires forall j :: 0 <= j < |cs| ==> cs[j].area <= cs[k].area
    requires forall j :: 0 <= j < k ==> cs[j].area < cs[k].area
    requires cs[k].m00 != 0.0
    requires forall j :: 0 <= j < k && IsNewMax(cs, j) ==> cs[j].m00 != 0.0
    ensures FindLargestContour(cs) == Ok(Blob(Centroid(cs[k]).0, Centroid(cs[k]).1, cs[k].area, Some(k)))
  {
    forall j | 0 <= j < |cs| && IsNewMax(cs, j)
      ensures cs[j].m00 != 0.0
    {
    }
  }

  /** Three regions of areas 10, 50 and 30: the second is picked. Two regions of equal
      maximal area: the first is picked. A region at or below the floor is never divided
      by, even with zero `m00`. */
  lemma SelectionExamples()
    ensures FindLargestContour([Contour(10.0, 10.0, 20.0, 30.0), Contour(50.0, 50.0, 500.0, 250.0),
                                Contour(30.0, 30.0, 30.0, 30.0)]) == Ok(Blob(10, 5, 50.0, Some(1)))
    ensures FindLargestContour([Contour(8.0, 8.0, 16.0, 8.0), Contour(8.0, 8.0, 80.0, 80.0)])
      == Ok(Blob(2, 1, 8.0, Some(0)))
    ensures FindLargestContour([Contour(0.5, 0.0, 0.0, 0.0), Contour(4.0, 4.0, 8.0, 8.0)])
      == Ok(Blob(2, 2, 4.0, Some(1)))
  {
  }

  /** A degenerate region with zero `m00` that beats the running area raises rather than
      being skipped; one that does not beat it is never divided by. */
  lemma ZeroMomentRaisesOnlyWhenPicked()
    ensures FindLargestContour([Contour(5.0, 0.0, 0.0, 0.0)]) == Raise(ZeroDivisionError)
    ensures FindLargestContour([Contour(9.0, 9.0, 9.0, 9.0), Contour(5.0, 0.0, 0.0, 0.0)]).Ok?
    ensures FindLargestContour([Contour(1.0, 0.0, 0.0, 0.0)]) == Ok(NOT_FOUND)
  {
    assert IsNewMax([Contour(5.0, 0.0, 0.0, 0.0)], 0);
    var two := [Contour(9.0, 9.0, 9.0, 9.0), Contour(5.0, 0.0, 0.0, 0.0)];
    assert !IsNewMax(two, 1) by { assert two[0].area >= two[1].area; }
  }
}

=== FILE: py_values.dfy ===
/** Values and numeric operators of Python 2 that the robot's decision rules rely on:
    `None` and its ordering against numbers, raised exceptions, floor division,
    `int()` of a float, and `numpy.round`. */
module PyValues {

  /** A value that may be Python's `None`. */
  datatype Option<T> = None | Some(value: T)

  /** The exceptions the modelled code can raise. */
  datatype PyError = ZeroDivisionError | AttributeError | IndexError

  /** Either a returned value or a raised exception. */
  datatype Result<T> = Ok(value: T) | Raise(error: PyError)

  /** Python 2 `a < b` where `a` may be `None`: `None` orders below every number. */
  predicate LessThan(a: Option<int>, b: int)
    ensures a.None? ==> LessThan(a, b)
    ensures a.Some? ==> (LessThan(a, b) <==> a.value < b)
  {
    a.None? || a.value < b
  }

  /** Python 2 `a > b` where `a` may be `None`: `None` is never greater than a number. */
  predicate GreaterThan(a: Option<int>, b: int)
    ensures a.None? ==> !GreaterThan(a, b)
    ensures a.Some? ==> (GreaterThan(a, b) <==> a.value > b)
    ensures GreaterThan(a, b) ==> !LessThan(a, b + 1)
  {
    a.Some? && a.value > b
  }

  /** Python 2 `a / b` on two ints, which floors (Dafny's `/` is Euclidean). */
  function FloorDiv(a: int, b: int): (q: int)
    requires b != 0
    ensures b > 0 ==> q * b <= a < q * b + b
    ensures b < 0 ==> q * b + b < a <= q * b
  {
    if b > 0 then a / b else (-a) / (-b)
  }

  /** Python `int(x)` of a float: truncation toward zero. */
  function TruncToInt(x: real): (n: int)
    ensures x >= 0.0 ==> n as real <= x < n as real + 1.0
    ensures x < 0.0 ==> n as real - 1.0 < x <= n as real
  {
    if x >= 0.0 then x.Floor else -((-x).Floor)
  }

  /** `numpy.round`: nearest integer, halves going to the even neighbour. */
  function RoundHalfEven(x: real): (n: int)
    ensures -0.5 <= x - n as real <= 0.5
    ensures x - n as real == 0.5 || x - n as real == -0.5 ==> n % 2 == 0
  {
    var f := x.Floor;
    var d := x - f as real;
    if d < 0.5 then f
    else if d > 0.5 then f + 1
    else if f % 2 == 0 then f
    else f + 1
  }
}

=== FILE: steering.dfy ===
/** The balloon-tracking decision of the Pi Noon challenge (`StreamProcessor`,
    pi_noon.py): from the balloon found in a frame and the `found` and `back_away`
    flags, the next flags and the drive commands.

    Three details are kept exactly as the code has them:
    - the back-off branch assigns `self.back_Away`, a different attribute from
      `back_away`, so that branch leaves `back_away` as it was (`strayBackAway` records
      the stray attribute);
    - `-self.STRAIGHT_SPEED/2` is Python 2 integer division of `-1` by `2`, which is `-1`,
      so backing off reverses at full speed;
    - the constructor sets `DRIVING` to false, and every drive command is guarded by it. */
module Steering {
  import opened PyValues
  import opened Balloon

  const MIN_BALLOON_SIZE: int := 3
  const BACK_AWAY_START: int := 60
  const BACK_AWAY_STOP: int := 40
  const TURN_P: int := 2
  const STRAIGHT_SPEED: int := 1
  const TURN_SPEED: int := 1

  /** The challenge sets the camera to 160 pixels wide; the processor's centre is
      `image_width / 2.0`. */
  const IMAGE_WIDTH: int := 160
  const IMAGE_CENTRE_X: real := IMAGE_WIDTH as real / 2.0

  /** A call to the drivetrain's `move(turn, speed)`. */
  datatype MotorCommand = Move(turn: real, speed: real)

  /** The processor attributes the decision reads or writes; `frame` is the counter `i`. */
  datatype Tracker = Tracker(
    found: bool,
    backAway: bool,
    strayBackAway: bool,
    edge: bool,
    driving: bool,
    frame: nat)

  /** The four branches of `process_image`. */
  datatype Branch =
    | BackOff   // balloon seen and judged close
    | Approach  // balloon seen, not close
    | Recoil    // balloon lost right after being seen
    | Search    // nothing seen, nothing seen before

  /** The decision state a freshly constructed processor starts in. */
  function NewTracker(): (t: Tracker)
    ensures !t.found && !t.backAway && !t.edge
    ensures !t.driving
    ensures t.frame == 0
  {
    Tracker(found := false, backAway := false, strayBackAway := false, edge := false,
            driving := false, frame := 0)
  }

  /** The radius `find_balloon` reports, `None` when it found nothing. */
  function Radius(b: Option<Circle>): Option<int>
  {
    if b.None? then None else Some(b.value.r)
  }

  /** `balloon_r > MIN_BALLOON_SIZE` under Python 2, where `None > 3` is false. */
  predicate Detected(b: Option<Circle>)
    ensures Detected(b) <==> b.Some? && b.value.r > MIN_BALLOON_SIZE
  {
    GreaterThan(Radius(b), MIN_BALLOON_SIZE)
  }

  /** The back-off test: the balloon is large, or moderately large while `back_away` is set. */
  predicate Close(r: int, backAway: bool)
    ensures r > BACK_AWAY_START ==> Close(r, backAway)
    ensures r <= BACK_AWAY_STOP ==> !Close(r, backAway)
    ensures BACK_AWAY_STOP < r <= BACK_AWAY_START ==> (Close(r, backAway) <==> backAway)
  {
    r > BACK_AWAY_START || (r > BACK_AWAY_STOP && backAway)
  }

  /** `TURN_P * (image_centre_x - x) / image_centre_x`. */
  function Turn(x: int): (turn: real)
    ensures turn * IMAGE_CENTRE_X == TURN_P as real * (IMAGE_CENTRE_X - x as real)
  {
    TURN_P as real * ((IMAGE_CENTRE_X - x as real) / IMAGE_CENTRE_X)
  }

  /** Which branch `process_image` takes: a detection backs off or approaches by the
      radius and `back_away`; otherwise the old `found` tells recoil from search. */
  function Classify(t: Tracker, b: Option<Circle>): (br: Branch)
    ensures br == BackOff <==>
      b.Some? && b.value.r > MIN_BALLOON_SIZE
      && (b.value.r > BACK_AWAY_START || (b.value.r > BACK_AWAY_STOP && t.backAway))
    ensures br == Approach <==>
      b.Some? && MIN_BALLOON_SIZE < b.value.r <= BACK_AWAY_START
      && (b.value.r <= BACK_AWAY_STOP || !t.backAway)
    ensures br == Recoil <==> (b.None? || b.value.r <= MIN_BALLOON_SIZE) && t.found
    ensures br == Search <==> (b.None? || b.value.r <= MIN_BALLOON_SIZE) && !t.found
  {
    if Detected(b) then
      if Close(b.value.r, t.backAway) then BackOff else Approach
    else if t.found then Recoil
    else Search
  }

  /** `seek`: turn on the spot, then stop (the sleeps in between are not modelled). */
  function Seek(): (cmds: seq<MotorCommand>)
    ensures |cmds| == 2
    ensures cmds[0] == Move(TURN_SPEED as real, 0.0)
    ensures cmds[1] == Move(0.0, 0.0)
  {
    [Move(TURN_SPEED as real, 0.0), Move(0.0, 0.0)]
  }

  /** The commands a branch sends when driving is enabled. */
  function Intended(t: Tracker, b: Option<Circle>): (cmds: seq<MotorCommand>)
    ensures Classify(t, b) != Search ==> |cmds| == 1
    ensures Classify(t, b) == Search ==> cmds == Seek()
    ensures Classify(t, b) in {BackOff, Recoil} ==> cmds[0].speed < 0.0
    ensures Classify(t, b) == Approach ==> cmds[0].speed > 0.0
    ensures Detected(b) ==> cmds[0].turn * Turn(b.value.x) >= 0.0
    ensures Classify(t, b) == Recoil ==> cmds[0].turn == 0.0
    ensures Classify(t, b) == Approach ==> cmds == [Move(Turn(b.value.x), STRAIGHT_SPEED as real)]
    ensures Classify(t, b) == BackOff ==> cmds == [Move(Turn(b.value.x) / 2.0, -1.0)]
    ensures Classify(t, b) == Recoil ==> cmds == [Move(0.0, -(STRAIGHT_SPEED as real))]
  {
    match Classify(t, b)
    case BackOff => [Move(Turn(b.value.x) / 2.0, FloorDiv(-STRAIGHT_SPEED, 2) as real)]
    case Approach => [Move(Turn(b.value.x), STRAIGHT_SPEED as real)]
    case Recoil => [Move(0.0, (-STRAIGHT_SPEED) as real)]
    case Search => Seek()
  }

  /** The new state and the drive commands of one processed frame. */
  datatype Step = Step(next: Tracker, commands: seq<MotorCommand>)

  /** The decision part of `process_image` for the balloon `b` that `find_balloon` returned. */
  function Steer(t: Tracker, b: Option<Circle>): (s: Step)
    ensures s.next.found <==> Detected(b)
    ensures Detected(b) && s.next.backAway ==> t.backAway
    ensures Classify(t, b) == BackOff ==> s.next.backAway == t.backAway && s.next.strayBackAway
    ensures Classify(t, b) == Approach ==> !s.next.backAway
    ensures Classify(t, b) != BackOff ==> s.next.strayBackAway == t.strayBackAway
    ensures !Detected(b) ==> !s.next.edge
    ensures Detected(b) ==> s.next.edge == t.edge
    ensures !Detected(b) ==> s.next.backAway == t.found
    ensures s.next.frame == t.frame + 1
    ensures !t.edge ==> !s.next.edge
    ensures s.next.driving == t.driving
    ensures !t.driving ==> s.commands == []
    ensures t.driving ==> s.commands == Intended(t, b)
  {
    var next := match Classify(t, b)
      case BackOff => t.(found := true, strayBackAway := true)
      case Approach => t.(found := true, backAway := false)
      case Recoil => t.(edge := false, backAway := true, found := false)
      case Search => t.(edge := false, backAway := false, found := false);
    Step(next.(frame := t.frame + 1), if t.driving then Intended(t, b) else [])
  }

  /** One call of `process_image` on the frame whose circle candidates are `circles`. */
  function ProcessImage(t: Tracker, circles: Option<seq<RawCircle>>): (s: Step)
    ensures s.next.frame == t.frame + 1
    ensures circles.None? || circles == Some([]) ==> !s.next.found
    ensures !t.driving ==> s.commands == []
  {
    Steer(t, FindBalloon(circles))
  }

  /** `process_image` on each frame in turn, collecting the drive commands. */
  function Run(t: Tracker, frames: seq<Option<seq<RawCircle>>>): (s: Step)
    ensures s.next.frame == t.frame + |frames|
    ensures s.next.driving == t.driving
    ensures !t.edge ==> !s.next.edge
    ensures !t.driving ==> s.commands == []
    decreases |frames|
  {
    if |frames| == 0 then Step(t, [])
    else
      var first := ProcessImage(t, frames[0]);
      var rest := Run(first.next, frames[1..]);
      Step(rest.next, first.commands + rest.commands)
  }

  /** A missing circle and one of radius at most `MIN_BALLOON_SIZE` both count as lost. */
  lemma SmallOrMissingIsLost(t: Tracker, b: Option<Circle>)
    requires b.None? || b.value.r <= MIN_BALLOON_SIZE
    ensures Classify(t, b) == (if t.found then Recoil else Search)
    ensures !Steer(t, b).next.found
  {
  }

  /** Losing the balloon right after seeing it: back off straight at full speed and set
      `back_away`. */
  lemma LostWhileTrackingRetreats(t: Tracker)
    requires t.found
    ensures var s := Steer(t, None);
      && s.next.backAway && !s.next.found
      && Intended(t, None) == [Move(0.0, -1.0)]
  {
  }

  /** The turn is positive for a balloon left of centre, zero at the centre, negative to
      the right, and at most `TURN_P` in size within the frame. */
  lemma TurnSteersTowardBalloon(x: int)
    ensures Turn(x) == 2.0 - x as real / 40.0
    ensures Turn(x) > 0.0 <==> x < 80
    ensures Turn(x) == 0.0 <==> x == 80
    ensures 0 <= x <= IMAGE_WIDTH ==> -2.0 <= Turn(x) <= 2.0
  {
  }

  /** Backing off reverses at full straight speed, not half of it: `-1/2` floors to `-1`. */
  lemma BackOffIsFullSpeedReverse(t: Tracker, b: Option<Circle>)
    requires Classify(t, b) == BackOff
    ensures Intended(t, b) == [Move(Turn(b.value.x) / 2.0, -(STRAIGHT_SPEED as real))]
    ensures Intended(t, b)[0].speed != -(STRAIGHT_SPEED as real) / 2.0
  {
  }

  /** `back_away` only ever becomes true in the lost branch: a frame with a balloon never
      sets it. */
  lemma BackAwaySetOnlyByLoss(t: Tracker, b: Option<Circle>)
    requires !t.backAway && Steer(t, b).next.backAway
    ensures Classify(t, b) == Recoil
    ensures !Detected(b) && t.found
  {
  }

  /** Seeing a large balloon (back-off branch) never arms the hysteresis: if the next frame
      shows the balloon at a radius between `BACK_AWAY_STOP` and `BACK_AWAY_START`, the
      robot drives forward again. */
  lemma BackOffDoesNotArmHysteresis(t: Tracker, near: Circle, nearer: Circle)
    requires !t.backAway
    requires near.r > BACK_AWAY_START
    requires BACK_AWAY_STOP < nearer.r <= BACK_AWAY_START
    ensures Classify(t, Some(near)) == BackOff
    ensures Classify(Steer(t, Some(near)).next, Some(nearer)) == Approach
  {
  }

  /** The hysteresis does hold after a loss: once the balloon was lost at close range,
      a balloon between `BACK_AWAY_STOP` and `BACK_AWAY_START` keeps the robot backing off. */
  lemma HysteresisAfterLoss(t: Tracker, nearer: Circle)
    requires t.found
    requires BACK_AWAY_STOP < nearer.r <= BACK_AWAY_START
    ensures Classify(Steer(t, None).next, Some(nearer)) == BackOff
  {
  }

  /** A balloon whose radius lies in `(BACK_AWAY_STOP, BACK_AWAY_START]`. */
  predicate Moderate(b: Option<Circle>)
  {
    b.Some? && BACK_AWAY_STOP < b.value.r <= BACK_AWAY_START
  }

  /** While `back_away` is set, a moderately large balloon takes the back-off branch, and
      since that branch never clears `back_away`, it stays set for the next frame. */
  lemma BackAwayHoldsOnModerateBalloon(t: Tracker, c: Circle)
    requires t.backAway
    requires BACK_AWAY_STOP < c.r <= BACK_AWAY_START
    ensures Classify(t, Some(c)) == BackOff
    ensures Steer(t, Some(c)).next.backAway && Steer(t, Some(c)).next.found
    ensures Intended(t, Some(c))[0].speed == -(STRAIGHT_SPEED as real)
  {
  }

  /** Once `back_away` is set, a run of frames that each show a moderately large balloon
      backs off on every frame: `back_away` stays set throughout, and when driving, one
      full-speed reverse is sent per frame. */
  lemma {:induction false} BackingOffPersists(t: Tracker, frames: seq<Option<seq<RawCircle>>>)
    requires t.backAway
    requires forall i :: 0 <= i < |frames| ==> Moderate(FindBalloon(frames[i]))
    ensures Run(t, frames).next.backAway
    ensures t.driving ==> |Run(t, frames).commands| == |frames|
    ensures t.driving ==> forall i :: 0 <= i < |frames| ==>
      Run(t, frames).commands[i].speed == -(STRAIGHT_SPEED as real)
    decreases |frames|
  {
    if |frames| > 0 {
      var first := ProcessImage(t, frames[0]);
      BackAwayHoldsOnModerateBalloon(t, FindBalloon(frames[0]).value);
      forall i | 0 <= i < |frames[1..]|
        ensures Moderate(FindBalloon(frames[1..][i]))
      {
        assert frames[1..][i] == frames[i + 1];
      }
      BackingOffPersists(first.next, frames[1..]);
    }
  }

  /** The Pi Noon processor never moves the robot: from the constructed state, no run of
      frames issues a drive command, and the frame counter counts the frames. */
  lemma RunFromNewTrackerIsSilent(frames: seq<Option<seq<RawCircle>>>)
    ensures Run(NewTracker(), frames).commands == []
    ensures Run(NewTracker(), frames).next.frame == |frames|
  {
  }

  /** With driving enabled, a run sends, frame by frame, what each branch intends. */
  lemma RunSendsIntendedCommands(t: Tracker, frames: seq<Option<seq<RawCircle>>>)
    requires t.driving
    requires |frames| > 0
    ensures var first := ProcessImage(t, frames[0]);
      Run(t, frames).commands[..|first.commands|] == Intended(t, FindBalloon(frames[0]))
  {
  }
}

=== FILE: threshold.dfy ===
/** Colour thresholding of an HSV frame with hue wrap-around (img_base_class.py).

    A frame is a grid of integer HSV pixels; a mask is a grid of booleans, where
    `true` stands for OpenCV's 255 and `false` for 0. Bounds are reals because the
    colour limits the calibration mode produces are floats. */
module Threshold {

  datatype Hsv = Hsv(h: int, s: int, v: int)

  /** One end of a colour range: a value per channel. */
  datatype Bound = Bound(h: real, s: real, v: real)

  /** The `(lower, upper)` pair kept as `colour_limits`. */
  datatype ColourRange = ColourRange(lower: Bound, upper: Bound)

  type Image = seq<seq<Hsv>>
  type Mask = seq<seq<bool>>

  /** The hue limits the wrapped branch uses for the two halves of the range. */
  const HUE_MIN: real := 0.0
  const HUE_MAX: real := 180.0

  /** Two grids have the same number of rows and the same length row by row. */
  predicate SameShape<A, B>(a: seq<seq<A>>, b: seq<seq<B>>)
  {
    |a| == |b| && forall r :: 0 <= r < |a| ==> |a[r]| == |b[r]|
  }

  /** `cv2.inRange` for one pixel: every channel lies within its inclusive bounds. */
  predicate Within(lo: Bound, hi: Bound, p: Hsv)
  {
    && lo.h <= p.h as real <= hi.h
    && lo.s <= p.s as real <= hi.s
    && lo.v <= p.v as real <= hi.v
  }

  /** The hue test of a colour range: one interval, or when the lower hue exceeds the
      upper one, the union of `[0, upper]` and `[lower, 180]`. */
  predicate HueAccepted(lo: real, hi: real, h: int)
  {
    if lo > hi then HUE_MIN <= h as real <= hi || lo <= h as real <= HUE_MAX
    else lo <= h as real <= hi
  }

  /** Which pixels a colour range selects: the hue test together with the
      saturation and value intervals, which do not depend on the hue branch. */
  predicate Selected(lo: Bound, hi: Bound, p: Hsv)
  {
    && HueAccepted(lo.h, hi.h, p.h)
    && lo.s <= p.s as real <= hi.s
    && lo.v <= p.v as real <= hi.v
  }

  /** `cv2.inRange` on a whole frame. */
  function InRange(img: Image, lo: Bound, hi: Bound): (m: Mask)
    ensures SameShape(m, img)
    ensures forall r, c :: 0 <= r < |img| && 0 <= c < |img[r]| ==> (m[r][c] <==> Within(lo, hi, img[r][c]))
  {
    seq(|img|, r requires 0 <= r < |img| =>
      seq(|img[r]|, c requires 0 <= c < |img[r]| => Within(lo, hi, img[r][c])))
  }

  /** `cv2.bitwise_or` of two masks of one shape. */
  function BitwiseOr(a: Mask, b: Mask): (m: Mask)
    requires SameShape(a, b)
    ensures SameShape(m, a)
    ensures forall r, c :: 0 <= r < |a| && 0 <= c < |a[r]| ==> (m[r][c] <==> a[r][c] || b[r][c])
  {
    seq(|a|, r requires 0 <= r < |a| =>
      seq(|a[r]|, c requires 0 <= c < |a[r]| => a[r][c] || b[r][c]))
  }

  /** `wrapping_inRange`: when the lower hue exceeds the upper hue, the mask is the
      union of the masks for hues `[0, upper]` and `[lower, 180]`, both with the
      range's own saturation and value bounds; otherwise it is a single `inRange`. */
  function WrappingInRange(img: Image, lo: Bound, hi: Bound): (m: Mask)
    ensures SameShape(m, img)
    ensures forall r, c :: 0 <= r < |img| && 0 <= c < |img[r]| ==> (m[r][c] <==> Selected(lo, hi, img[r][c]))
  {
    if lo.h > hi.h then
      var low := InRange(img, Bound(HUE_MIN, lo.s, lo.v), Bound(hi.h, hi.s, hi.v));
      var high := InRange(img, Bound(lo.h, lo.s, lo.v), Bound(HUE_MAX, hi.s, hi.v));
      BitwiseOr(low, high)
    else
      InRange(img, lo, hi)
  }

  /** `threshold_image`: the wrapping mask of the unpacked `(lower, upper)` limits. */
  function ThresholdImage(img: Image, limits: ColourRange): (m: Mask)
    ensures SameShape(m, img)
    ensures forall r, c :: 0 <= r < |img| && 0 <= c < |img[r]| ==>
      (m[r][c] <==> Selected(limits.lower, limits.upper, img[r][c]))
  {
    WrappingInRange(img, limits.lower, limits.upper)
  }

  /** With the lower hue above the upper hue, a pixel is kept exactly when its hue is in
      `[0, upper]` or `[lower, 180]` and its saturation and value are within bounds. */
  lemma WrappedRangeSelection(img: Image, lo: Bound, hi: Bound, r: nat, c: nat)
    requires lo.h > hi.h
    requires r < |img| && c < |img[r]|
    ensures var p := img[r][c];
      WrappingInRange(img, lo, hi)[r][c] <==>
        && (0.0 <= p.h as real <= hi.h || lo.h <= p.h as real <= 180.0)
        && lo.s <= p.s as real <= hi.s
        && lo.v <= p.v as real <= hi.v
  {
  }

  /** With the lower hue at or below the upper hue, a pixel is kept exactly when all
      three channels are within their inclusive bounds. */
  lemma PlainRangeSelection(img: Image, lo: Bound, hi: Bound, r: nat, c: nat)
    requires lo.h <= hi.h
    requires r < |img| && c < |img[r]|
    ensures WrappingInRange(img, lo, hi)[r][c] <==> Within(lo, hi, img[r][c])
  {
  }

  /** Changing only the hue limits never changes the saturation and value tests:
      two ranges with the same saturation and value bounds agree on every pixel
      whose hue both accept, and a pixel whose hue is accepted is kept exactly when
      its saturation and value are in bounds. */
  lemma SaturationValueIndependentOfHue(img: Image, lo: Bound, hi: Bound, lo': Bound, hi': Bound, r: nat, c: nat)
    requires lo.s == lo'.s && lo.v == lo'.v && hi.s == hi'.s && hi.v == hi'.v
    requires r < |img| && c < |img[r]|
    requires HueAccepted(lo.h, hi.h, img[r][c].h) && HueAccepted(lo'.h, hi'.h, img[r][c].h)
    ensures WrappingInRange(img, lo, hi)[r][c] == WrappingInRange(img, lo', hi')[r][c]
    ensures WrappingInRange(img, lo, hi)[r][c] <==>
      lo.s <= img[r][c].s as real <= hi.s && lo.v <= img[r][c].v as real <= hi.v
  {
  }

  /** The mask is pointwise: two frames of one shape that agree on a pixel get the
      same mask entry there, whatever the other pixels hold. */
  lemma MaskIsPointwise(a: Image, b: Image, limits: ColourRange, r: nat, c: nat)
    requires SameShape(a, b)
    requires r < |a| && c < |a[r]|
    requires a[r][c] == b[r][c]
    ensures ThresholdImage(a, limits)[r][c] == ThresholdImage(b, limits)[r][c]
  {
  }

  /** The wrapped mask is the union of the two non-wrapping masks that the same
      function computes for hues `[0, upper]` and `[lower, 180]`, as long as each half
      is itself non-wrapping. */
  lemma WrappedIsUnionOfPlain(img: Image, lo: Bound, hi: Bound)
    requires hi.h < lo.h
    requires HUE_MIN <= hi.h && lo.h <= HUE_MAX
    ensures var low := WrappingInRange(img, Bound(HUE_MIN, lo.s, lo.v), hi);
            var high := WrappingInRange(img, lo, Bound(HUE_MAX, hi.s, hi.v));
            WrappingInRange(img, lo, hi) == BitwiseOr(low, high)
  {
  }

  /** The red range, hues 170 to 10: hues 5 and 175 are kept and
      hue 90 is not, with saturation and value inside their bounds. */
  lemma RedWrapExample()
    ensures var lo := Bound(170.0, 0.0, 0.0);
            var hi := Bound(10.0, 255.0, 255.0);
            var img := [[Hsv(5, 200, 200), Hsv(90, 200, 200), Hsv(175, 200, 200)]];
            WrappingInRange(img, lo, hi) == [[true, false, true]]
  {
    var lo := Bound(170.0, 0.0, 0.0);
    var hi := Bound(10.0, 255.0, 255.0);
    var img := [[Hsv(5, 200, 200), Hsv(90, 200, 200), Hsv(175, 200, 200)]];
    var m := WrappingInRange(img, lo, hi);
    assert |m| == 1 && |m[0]| == 3;
    assert m[0][0] && !m[0][1] && m[0][2];
    assert m[0] == [true, false, true];
  }

  /** The range a fresh calibration processor starts from. */
  const FULL_RANGE: ColourRange := ColourRange(Bound(0.0, 0.0, 0.0), Bound(180.0, 255.0, 255.0))

  /** An 8-bit HSV pixel as OpenCV produces it: hue up to 180, saturation and value up to 255. */
  predicate IsHsv8(p: Hsv)
  {
    0 <= p.h <= 180 && 0 <= p.s <= 255 && 0 <= p.v <= 255
  }

  /** Before any calibration, thresholding keeps every 8-bit HSV pixel. */
  lemma FullRangeSelectsAll(img: Image, r: nat, c: nat)
    requires r < |img| && c < |img[r]|
    requires IsHsv8(img[r][c])
    ensures ThresholdImage(img, FULL_RANGE)[r][c]
  {
  }
}
